=== FILE: README.md ===
# Time-capsule physics and touch model

A Dafny model of the per-event logic of the time-capsule board (`App.jsx`):
capsules are records in a list that a physics frame advances (gravity,
friction, clamping against floor, ceiling and walls, pairwise velocity
nudges), that a touch gesture drags or taps, and that a tap opens once the
unlock time has passed and the right password is typed. New capsules are
appended from the create form, and the fallback store replaces a record by id
or appends it.

Every operation is a total function over immutable values. The container
box, the current time, `Math.random()` and `Math.sqrt` are parameters:

- `Frame`: the container box. It is optional where the source handles a
  missing container.
- `now` / `stamp`: `Date.now()` and its ISO string.
- `rand`, `rx`, `ry`: draws of `Math.random()`, taken in [0, 1).
- `sqrt: real -> real`: the distance computation of the pairwise loop.

Arithmetic is over `real`, so IEEE rounding is not modelled.

Modules, one per component:

- `Capsules` (`capsules.dfy`): the capsule record, the container box,
  `findIndex` by id, and JavaScript truthiness of optional strings.
- `Physics` (`physics.dfy`): the body of `updatePhysics`.
- `Interaction` (`interaction.dfy`): `handleTouchStart`, `handleTouchMove`
  and `handleTouchEnd`.
- `UnlockGate` (`unlock.dfy`): the unlock date, `handleCapsuleClick` and
  `handlePasswordCheck`.
- `Creation` (`creation.dfy`): `handleCreateCapsule`.
- `Store` (`store.dfy`): the list operation of `saveCapsuleToLocalStorage`,
  and the capsule/row mapping of the remote table.
- `Wrappers` (`wrappers.dfy`): `Option`.

Behaviour of the code worth knowing, which the model keeps as written:

- A gesture becomes a drag only when the finger is strictly more than 10
  pixels from its start point. Exactly 10 pixels is still a tap
  (`Interaction.TenPixelsIsStillATap`).
- A touch start on a second capsule is not ignored while another is held.
  It replaces the held capsule.
- A touch start does not zero the capsule's velocity. The next physics frame
  does, because the held capsule is frozen there.
- The pairwise loop skips the held capsule as a partner. It runs over ordered
  pairs: each free capsule is nudged by every other capsule with a different
  id, so each unordered pair is considered twice.
- The unlock date string `2025-11-13T18:00:00` has no zone designator. It is
  read as local time, so the unlock instant depends on the device's UTC
  offset (`UnlockGate.UnlockAt`).
- `if (draggedCapsule)` tests the held id for truthiness. A held id of 0
  therefore counts as "nothing held" in the move and end handlers
  (`Interaction.Holding`). The physics frame compares with `===` and still
  freezes it. Ids are `Date.now()` values, so this never arises for capsules
  created here.
- The row mapping reads texts with `||`. An empty feeling or message
  therefore comes back from the remote table as absent
  (`Store.RowRoundTrip`).

## Model

| member | source | states |
|---|---|---|
| `Physics.Step` | App.jsx:63-143 | With no container the list is returned unchanged. Otherwise it is mapped one-for-one: same length and order, and ids and payload untouched. The held capsule keeps its position at zero velocity. In a container at least 80×100 px, every free capsule ends inside `[0, rightLimit] × [0, bottomLimit]`. |
| `Physics.StepCapsule` | App.jsx:71-142 | A capsule keeps its payload. The held one only has its velocity zeroed. A free one's position is exactly its clamped motion; the nudges never change it. |
| `Physics.Advance` | App.jsx:81-90 | Friction never increases the speed: `|vx'| <= |vx|` and `|vy'| <= |vy + 0.5|` (gravity may still speed a capsule up vertically). The percent displacement times the container size is 100 times the new pixel velocity. |
| `Physics.Floor` | App.jsx:92-98 | A floor hit clamps to the limit and reverses the direction without gaining speed. The reflected speed is `-0.7·vy`, or exactly 0 iff `0.7·|vy| < 0.5`. Without a hit nothing changes. |
| `Physics.Move` | App.jsx:77-115 | After the floor, ceiling and wall clamps, `0 <= y <= bottomLimit` when the height is at least 100 px, and `0 <= x <= rightLimit` when the width is at least 80 px. In a container at least 100 px high, a floor hit clamps to the limit; its vertical speed is 0 exactly when `0.7·|vy| < 0.5`, and `-0.7·vy` otherwise, and a ceiling hit clamps to 0 with `vy` scaled by `-0.7`. In a container at least 80 px wide, a wall hit clamps to that wall with `vx` scaled by `-0.7`. Friction and the clamps never increase the speed: `|vx'| <= |vx|` and `|vy'| <= |vy + 0.5|`. A body whose integrated position is already in the field is not touched by the clamps. |
| `Physics.ReflectLow` | App.jsx:100-115 | A ceiling or left-wall hit (position below 0) clamps to 0 and sets the velocity to `-0.7` times its value, with no settle rule. Otherwise nothing changes. |
| `Physics.ReflectHigh` | App.jsx:106-111 | A right-wall hit (position beyond the limit) clamps to the limit and sets the velocity to `-0.7` times its value, with no settle rule. Otherwise nothing changes. |
| `Physics.BottomLimit` | App.jsx:93-93 | The floor limit lies in `[0, 100)` percent iff the container is at least one capsule high; otherwise it is negative. |
| `Physics.RightLimit` | App.jsx:107-107 | The right-wall limit lies in `[0, 100)` percent iff the container is at least one capsule wide; otherwise it is negative. |
| `Physics.RestingCapsuleStaysPut` | App.jsx:81-104 | In a container at least 100 px high, a capsule on the floor with vertical speed in `[-0.5, 0.2]` stays on the floor with speed exactly 0. It does not micro-bounce forever. |
| `Physics.Repel` | App.jsx:119-134 | A partner that is not strictly between 0 and 64 px away causes no correction. A near partner's correction points strictly towards it on every axis where the two are apart, so subtracting it pushes the two apart. |
| `Physics.Nudge` | App.jsx:118-136 | A list with no partner (only the capsule itself or the held capsule) leaves the velocity unchanged. |
| `Physics.OnePartnerPushesApart` | App.jsx:119-134 | Over a single partner the loop subtracts exactly that partner's correction, so when it is near the velocity component towards it strictly drops on every axis where the two are apart. |
| `Physics.NudgeAddsCorrection` | App.jsx:118-136 | The pairwise loop adds one total correction to the velocity, and that correction depends only on the positions, not on the velocity. |
| `Physics.IsolatedCapsuleKeepsVelocity` | App.jsx:118-136 | If no partner (another id, not held) is near, the pairwise loop leaves the velocity unchanged. |
| `Physics.PositionsIgnoreRepulsion` | App.jsx:117-142 | Positions after a frame do not depend on the distance function at all: the pairwise loop only writes velocities. |
| `Physics.LoneCapsuleStep` | App.jsx:77-142 | A free capsule with no near partner, in a roomy container, ends inside the field. Its velocity is exactly that of the clamped motion, and its horizontal speed has not grown. |
| `Interaction.TouchStart` | App.jsx:372-387 | A touch outside the capsule body changes nothing. A touch on the body holds that capsule (replacing any held one) as a tap so far. It records the touch as the start, and an offset such that corner + offset = touch. |
| `Interaction.Clamp` | App.jsx:408-409 | The result is in `[0, hi]`. It equals the input when the input is in range, 0 below the range and `hi` above it. |
| `Interaction.TouchMove` | App.jsx:389-418 | With nothing held, nothing changes. Otherwise the gesture becomes a drag iff it was one or the finger is more than 10 px from the start. Every other capsule is untouched. With a container, the held capsule moves to the clamped grab position in `[0,85]×[0,80]` at zero velocity. Without one, the list is unchanged. |
| `Interaction.DragFollowsFinger` | App.jsx:379-413 | After grabbing a capsule where it is drawn, the grab position is its start position shifted by the finger's travel in percent. The capsule ends at that point, clamped to the drag box. |
| `Interaction.MovesClassify` | App.jsx:389-400 | Over any run of moves, the held capsule, start point and offset stay fixed. The gesture is a drag iff it already was one or some touch went more than 10 px from the start. It never reverts to a tap. |
| `Interaction.TouchEnd` | App.jsx:420-444 | With nothing held, nothing changes. Otherwise nothing is held afterwards. A tap asks to open the touched capsule and leaves the list unchanged. A drag gives only the held capsule a velocity in `[-1,1) × {0}`, with position and payload kept, and persists the first record with its id. |
| `Interaction.TapOrThrow` | App.jsx:372-444 | For a whole gesture (grab, moves, release), the release is an open attempt iff no touch went more than 10 px from the grab point. The gesture always ends with nothing held. |
| `Interaction.TenPixelsIsStillATap` | App.jsx:396-400 | A finger exactly 10 px from its start is below the threshold; 10.01 px is beyond it. |
| `UnlockGate.UnlockAt` | App.jsx:33-34 | The unlock instant is 2025-11-13 18:00 UTC for a UTC device. It is 09:00 UTC (epoch ms 1763024400000) in Korea Standard Time, and earlier for every zone east of UTC. |
| `UnlockGate.Countdown` | App.jsx:449-452 | For remaining `r > 0` ms, `hours < 24` and `minutes < 60`. Also `days·86400000 + hours·3600000 + minutes·60000 <= r` and `r` is below that sum plus 60000. |
| `UnlockGate.CountdownUnique` | App.jsx:449-452 | Any days/hours/minutes with those ranges that bound `r` to the minute are exactly the countdown's. |
| `UnlockGate.OpenAttempt` | App.jsx:446-462 | The tap shows a notice iff `now < unlock`. The viewer is then unchanged, and the notice is the countdown of `unlock - now`. At or after the unlock time, the viewer opens on the capsule locked, with empty password and error. |
| `UnlockGate.PasswordCheck` | App.jsx:464-471 | With no capsule selected the source throws. Otherwise the viewer is unlocked iff it was already unlocked or the typed text equals the password exactly. The error is empty iff the text matched. The selection, open flag and typed text are kept. |
| `UnlockGate.UnlockNeedsTimeAndPassword` | App.jsx:446-471 | Start from a closed viewer, tap, then make any run of password attempts. The capsule ends unlocked iff the tap was at or after the unlock time and some attempt equals the password exactly. |
| `UnlockGate.GateAroundUnlockTime` | App.jsx:446-462 | One minute before the unlock instant, the tap only reports 0 days 0 hours 1 minute. One second after it, the viewer opens. |
| `Creation.Create` | App.jsx:332-355 | Nothing is created iff the name or password is empty. Otherwise exactly one capsule is appended after the unchanged list. It has the form's fields, id `now`, `y = 0`, zero velocity and `x` in `[20, 80)`. |
| `Creation.CreatedFoundById` | App.jsx:338-355 | If no stored capsule has the new id, looking it up after creation finds the new capsule at the end. Every other id is found where it was. |
| `Capsules.FindIndexAppend` | App.jsx:354-354 | Appending a record keeps the index of every id already present. An absent id is found at the appended record iff that record carries it. |
| `Capsules.FindIndex` | App.jsx:273-273 | The result is the first index holding the id. It is absent iff no record has that id. |
| `Store.Upsert` | App.jsx:269-279 | If the id is present, the first record with it is replaced and the length and all other records are kept. Otherwise the capsule is appended. Either way the result contains it. |
| `Store.UpsertThenFind` | App.jsx:273-278 | After an upsert, looking up the capsule's id finds exactly the capsule written. |
| `Store.UpsertIdempotent` | App.jsx:273-278 | Upserting the same capsule twice equals upserting it once. |
| `Store.UpsertKeepsOthers` | App.jsx:273-278 | An upsert changes neither the index nor the record found for any other id. |
| `Store.ToRow` | App.jsx:242-252 | The row carries the capsule's id, name, password, image, feeling, message, position and velocity, and leaves the camelCase columns empty. Its creation time is the capsule's when that is truthy, otherwise the write time. The update time is the write time. |
| `Store.FromRow` | App.jsx:180-193 | The capsule keeps the row's id, name, password, image, position and velocity when present. A missing position is seeded in `[20,80) × [10,30)` and a missing velocity is zero. Each text takes the snake_case column when truthy, else the camelCase one. |
| `Store.RowRoundTrip` | App.jsx:180-193 | Writing a row and reading it back returns the capsule, except two things. An empty feeling or message comes back absent. A missing creation time comes back as the write time. |
| `Store.RowRoundTripExact` | App.jsx:180-193 | A capsule with non-empty (or absent) feeling and message and a set creation time survives the round trip unchanged. |

## Left out

- Remote persistence and its fallbacks (`loadCapsules`,
  `saveCapsuleToSupabase`, `supabase.js`) are left out. They are network
  calls and environment lookups. Only the row mapping is modelled.
- `localStorage` reads and writes, `JSON.parse`/`stringify`, `try`/`catch`
  fallbacks, `alert` and `console` calls are left out as I/O.
  `saveCapsuleToLocalStorage` is modelled as its list operation `Store.Upsert`.
- Loading from local storage (App.jsx:209-229) is left out because it is I/O.
  Its position and velocity seeding is the same as in `Store.FromRow`.
- The `requestAnimationFrame` loop, its cancellation and the 1-second
  debounced save are left out: they are scheduling and timers. Each call of
  `Physics.Step` is one frame.
- React's batching of state updates is not modelled. Each handler is a
  transition from the state it reads to the state it sets. The touch-end
  handler reads the rendered `capsules` rather than the latest list; the
  model passes it whichever list the caller supplies.
- The DOM is not modelled: element lookup, bounding boxes,
  `closest('.capsule-body')` and `preventDefault`. The container box and the
  capsule's corner are parameters, and "touched the capsule body" is a
  boolean.
- Physics.Repel: `Math.sqrt` is a parameter with no properties.
  `cos(atan2(dy, dx))` and `sin(atan2(dy, dx))` are written as `dx / dist`
  and `dy / dist`. That identity holds when `dist` is the true distance, so
  the exact size of a nudge is modelled only up to the distance function.
- Physics.Step: a measured container is assumed to have positive width and
  height. The source divides by both without a guard (the container's CSS
  gives it a 400 px minimum height).
- Physics.Move: in a container smaller than one capsule the limits are
  negative, so the source runs the floor rule and then the ceiling rule (and
  the right wall and then the left wall) on the same frame, ending at 0 with
  the velocity reflected twice. `Move` computes this, but its contract states
  the per-wall outcome only for containers at least one capsule high or wide.
- Interaction.TouchMove: a measured container is assumed to have positive
  width and height, as for the physics step.
- Interaction.DragFollowsFinger: the capsule's drawn corner is taken as its
  percent position against the container's border box. The container has a
  2 px border, so the browser actually places the capsule against the padding
  box; the small jump this causes on the first move is not modelled.
- Interaction.TouchEnd: one draw `rand` gives the throw speed of every
  capsule with the held id. The source calls `Math.random()` once per such
  capsule, so duplicate ids could get different speeds.
- Store.ToRow: one `stamp` stands for both `new Date()` calls. The source
  reads the clock twice, so `created_at` and `updated_at` may differ by a
  millisecond.
- `capsule.velocity?.x || 0` is not modelled separately. Every capsule here
  carries a velocity, and `|| 0` is the identity on reals.
- IEEE floating point is left out. Reals make the clamp and restitution
  facts exact.
- Image upload is left out: `FileReader` is I/O, and its 5 MB check
  happens before anything enters the list.
- The body-scroll toggle, closing the viewer, resetting the create form and
  all JSX rendering are left out. They are UI with no state the core reads.

=== FILE: capsules.dfy ===
/** The capsule record shared by the physics step, the touch handlers, the
    unlock gate and the store, plus the container geometry they all read. */
module Capsules {
  import opened Wrappers

  /** Capsule ids are the millisecond timestamps `Date.now()` returns at creation. */
  type Id = int

  /** A 2D vector: a position in percent of the container (top-left origin),
      or a velocity in pixels per animation frame. */
  datatype Vec = Vec(x: real, y: real)

  const Zero: Vec := Vec(0.0, 0.0)

  /** One time capsule. The texts that may be `null` or `undefined` in the
      source are optional; the simulation never looks at them. */
  datatype Capsule = Capsule(
    id: Id,
    name: string,
    password: string,
    image: Option<string>,
    currentFeeling: Option<string>,
    futureMessage: Option<string>,
    createdAt: Option<string>,
    position: Vec,
    velocity: Vec)

  /** `b` is `a` with at most its position and velocity changed. */
  predicate SamePayload(a: Capsule, b: Capsule) {
    a.(position := b.position, velocity := b.velocity) == b
  }

  /** Bounding box of the capsule container in client pixels. */
  datatype Frame = Frame(left: real, top: real, width: real, height: real)

  /** A mounted container with a non-degenerate box; the source divides by both sides. */
  predicate Measured(f: Frame) {
    f.width > 0.0 && f.height > 0.0
  }

  /** JavaScript truthiness of an optional string: `null`, `undefined` and `''` are falsy. */
  predicate Truthy(s: Option<string>) {
    s.Some? && s.value != ""
  }

  /** JavaScript `a || b` on optional strings. */
  function OrElse(a: Option<string>, b: Option<string>): Option<string> {
    if Truthy(a) then a else b
  }

  /** `Array.prototype.findIndex(c => c.id === id)`: the first index holding `id`, if any. */
  function FindIndex(list: seq<Capsule>, id: Id): (r: Option<nat>)
    ensures r.Some? ==> r.value < |list| && list[r.value].id == id
    ensures r.Some? ==> forall j :: 0 <= j < r.value ==> list[j].id != id
    ensures r.None? <==> forall j :: 0 <= j < |list| ==> list[j].id != id
  {
    if list == [] then None
    else if list[0].id == id then Some(0)
    else match FindIndex(list[1..], id)
      case None => None
      case Some(i) => Some(i + 1)
  }

  /** `FindIndex` returns any index holding the id with none before it. */
  lemma FindIndexIs(list: seq<Capsule>, id: Id, i: nat)
    requires i < |list| && list[i].id == id
    requires forall j :: 0 <= j < i ==> list[j].id != id
    ensures FindIndex(list, id) == Some(i)
  {
    assert FindIndex(list, id).Some?;
  }

  /** Appending a record does not change where an id already present is found,
      and an absent id is found at the appended record iff it carries it. */
  lemma {:induction false} FindIndexAppend(caps: seq<Capsule>, c: Capsule, id: Id)
    ensures FindIndex(caps, id).Some? ==> FindIndex(caps + [c], id) == FindIndex(caps, id)
    ensures FindIndex(caps, id).None? && c.id == id ==> FindIndex(caps + [c], id) == Some(|caps|)
    ensures FindIndex(caps, id).None? && c.id != id ==> FindIndex(caps + [c], id).None?
  {
    if caps != [] {
      assert (caps + [c])[1..] == caps[1..] + [c];
      FindIndexAppend(caps[1..], c, id);
    }
  }
}

=== FILE: creation.dfy ===
/** Creating a capsule from the form (`handleCreateCapsule`). */
module Creation {
  import opened Wrappers
  import opened Capsules

  /** The create form's fields. */
  datatype Draft = Draft(name: string, password: string, image: Option<string>, currentFeeling: string, futureMessage: string)

  /** Either the form was refused (an alert in the source) or the new capsule
      was appended to the list. */
  datatype Creation = Rejected | Created(capsules: seq<Capsule>, capsule: Capsule)

  /** Seed a new capsule at the top edge with zero velocity and a horizontal
      position `rand * 60 + 20` drawn from `rand` in [0, 1). `now` is
      `Date.now()`, which becomes the id, and `stamp` its ISO string. */
  function Create(caps: seq<Capsule>, d: Draft, now: int, stamp: string, rand: real): (r: Creation)
    requires 0.0 <= rand < 1.0
    ensures r.Rejected? <==> d.name == "" || d.password == ""
    ensures r.Created? ==> r.capsules == caps + [r.capsule]
    ensures r.Created? ==>
      var c := r.capsule;
      && c.id == now && c.name == d.name && c.password == d.password && c.image == d.image
      && c.currentFeeling == Some(d.currentFeeling) && c.futureMessage == Some(d.futureMessage)
      && c.createdAt == Some(stamp)
      && 20.0 <= c.position.x < 80.0 && c.position.y == 0.0 && c.velocity == Zero
  {
    if d.name == "" || d.password == "" then Rejected
    else
      var c := Capsule(now, d.name, d.password, d.image, Some(d.currentFeeling), Some(d.futureMessage),
                       Some(stamp), Vec(rand * 60.0 + 20.0, 0.0), Zero);
      Created(caps + [c], c)
  }

  /** A capsule created with an id no stored capsule has is found by that id
      at the end of the list, and every earlier id is found where it was. */
  lemma CreatedFoundById(caps: seq<Capsule>, d: Draft, now: int, stamp: string, rand: real, id: Id)
    requires 0.0 <= rand < 1.0
    requires d.name != "" && d.password != ""
    requires FindIndex(caps, now).None?
    ensures var r := Create(caps, d, now, stamp, rand);
      && FindIndex(r.capsules, now) == Some(|caps|)
      && (id != now ==> FindIndex(r.capsules, id) == FindIndex(caps, id))
  {
    var r := Create(caps, d, now, stamp, rand);
    FindIndexAppend(caps, r.capsule, now);
    FindIndexAppend(caps, r.capsule, id);
  }
}

=== FILE: interaction.dfy ===
/** The touch gesture on a capsule (`handleTouchStart`, `handleTouchMove`,
    `handleTouchEnd`): grabbing records where the finger holds the capsule,
    moving drags it inside a clamped box and classifies the gesture, and
    releasing either throws the capsule or reports a tap. */
module Interaction {
  import opened Wrappers
  import opened Capsules

  /** A gesture becomes a drag once the finger is more than this many pixels from where it started. */
  const DragThreshold: real := 10.0
  /** Drag positions are clamped to `[0, DragMaxX] x [0, DragMaxY]` percent. */
  const DragMaxX: real := 85.0
  const DragMaxY: real := 80.0

  /** The held capsule, whether the gesture has become a drag, the touch
      point where it began and the finger's offset from the capsule's corner. */
  datatype DragState = DragState(dragged: Option<Id>, dragging: bool, start: Vec, offset: Vec)

  /** `if (draggedCapsule)`: the held id is tested for JavaScript truthiness,
      so a held id of 0 reads as nothing held. */
  predicate Holding(s: DragState) {
    s.dragged.Some? && s.dragged.value != 0
  }

  /** Squared pixel distance between two touch points. */
  function Dist2(a: Vec, b: Vec): real {
    (b.x - a.x) * (b.x - a.x) + (b.y - a.y) * (b.y - a.y)
  }

  /** `Math.sqrt(dx*dx + dy*dy) > 10`, compared on squares (both sides are non-negative). */
  predicate BeyondThreshold(start: Vec, touch: Vec) {
    Dist2(start, touch) > DragThreshold * DragThreshold
  }

  /** `Math.max(0, Math.min(hi, v))`. */
  function Clamp(v: real, hi: real): (r: real)
    requires 0.0 <= hi
    ensures 0.0 <= r <= hi
    ensures 0.0 <= v <= hi ==> r == v
    ensures v < 0.0 ==> r == 0.0
    ensures v > hi ==> r == hi
  {
    var low := if hi < v then hi else v;
    if 0.0 > low then 0.0 else low
  }

  /** Where the capsule's corner sits, in percent of the container, when the
      finger is at `touch` and holds the capsule `offset` pixels from its corner. */
  function GrabPosition(touch: Vec, offset: Vec, f: Frame): Vec
    requires Measured(f)
  {
    Vec((touch.x - f.left - offset.x) / f.width * 100.0, (touch.y - f.top - offset.y) / f.height * 100.0)
  }

  /** Touch start on a capsule. Only a touch inside the capsule body
      (`onBody`) grabs it; the grab replaces any capsule already held. */
  function TouchStart(s: DragState, c: Capsule, onBody: bool, touch: Vec, corner: Vec): (r: DragState)
    ensures !onBody ==> r == s
    ensures onBody ==> r.dragged == Some(c.id) && !r.dragging && r.start == touch
    ensures onBody ==> corner.x + r.offset.x == touch.x && corner.y + r.offset.y == touch.y
  {
    if onBody then DragState(Some(c.id), false, touch, Vec(touch.x - corner.x, touch.y - corner.y))
    else s
  }

  /** The result of a touch move: the gesture state and the capsule list. */
  datatype Moved = Moved(state: DragState, capsules: seq<Capsule>)

  /** Every capsule with id `id` put at `p` with zero velocity; the rest untouched. */
  function Place(caps: seq<Capsule>, id: Id, p: Vec): (r: seq<Capsule>)
    ensures |r| == |caps|
    ensures forall i :: 0 <= i < |r| && caps[i].id != id ==> r[i] == caps[i]
    ensures forall i :: 0 <= i < |r| && caps[i].id == id ==> r[i] == caps[i].(position := p, velocity := Zero)
  {
    seq(|caps|, i requires 0 <= i < |caps| => if caps[i].id == id then caps[i].(position := p, velocity := Zero) else caps[i])
  }

  /** Touch move. While a capsule is held the gesture turns into a drag once
      the finger is beyond the threshold (and stays one); if the container
      can be measured the held capsule follows the finger, clamped to the
      drag box, at zero velocity. */
  function TouchMove(s: DragState, caps: seq<Capsule>, touch: Vec, frame: Option<Frame>): (r: Moved)
    requires frame.Some? ==> Measured(frame.value)
    ensures !Holding(s) ==> r == Moved(s, caps)
    ensures Holding(s) ==> r.state == s.(dragging := s.dragging || BeyondThreshold(s.start, touch))
    ensures frame.None? ==> r.capsules == caps
    ensures |r.capsules| == |caps|
    ensures forall i :: 0 <= i < |caps| && Some(caps[i].id) != s.dragged ==> r.capsules[i] == caps[i]
    ensures Holding(s) && frame.Some? ==>
      var g := GrabPosition(touch, s.offset, frame.value);
      forall i :: 0 <= i < |caps| && Some(caps[i].id) == s.dragged ==>
        r.capsules[i] == caps[i].(position := Vec(Clamp(g.x, DragMaxX), Clamp(g.y, DragMaxY)), velocity := Zero)
  {
    if !Holding(s) then Moved(s, caps)
    else
      var s' := if BeyondThreshold(s.start, touch) then s.(dragging := true) else s;
      match frame
      case None => Moved(s', caps)
      case Some(f) =>
        var g := GrabPosition(touch, s.offset, f);
        Moved(s', Place(caps, s.dragged.value, Vec(Clamp(g.x, DragMaxX), Clamp(g.y, DragMaxY))))
  }

  /** A capsule dragged by touch stays inside the drag box and, away from the
      box edges, moves exactly with the finger: its corner keeps the pixel
      offset at which it was grabbed. `corner` is where the capsule was drawn
      when the touch began, consistent with its position. */
  lemma DragFollowsFinger(s: DragState, caps: seq<Capsule>, c: Capsule, touch0: Vec, touch: Vec, f: Frame, i: nat)
    requires Measured(f) && c.id != 0
    requires i < |caps| && caps[i].id == c.id
    ensures var s1 := TouchStart(s, c, true, touch0, Corner(c, f));
      var g := GrabPosition(touch, s1.offset, f);
      var p := Vec(c.position.x + (touch.x - touch0.x) / f.width * 100.0, c.position.y + (touch.y - touch0.y) / f.height * 100.0);
      && g == p
      && TouchMove(s1, caps, touch, Some(f)).capsules[i].position == Vec(Clamp(p.x, DragMaxX), Clamp(p.y, DragMaxY))
  {
  }

  /** Client-pixel corner of a capsule drawn at its percent position, taking
      the percentages against the container's box. The rendered container has
      a 2 px border, so the browser places the capsule against the padding box
      while the move handler divides by the border box; this corner ignores
      that difference, which in the app shows as a small jump on the first move. */
  function Corner(c: Capsule, f: Frame): Vec {
    Vec(f.left + c.position.x * f.width / 100.0, f.top + c.position.y * f.height / 100.0)
  }

  /** A sequence of touch moves applied in order. */
  function MoveAll(s: DragState, caps: seq<Capsule>, touches: seq<Vec>, frame: Option<Frame>): Moved
    requires frame.Some? ==> Measured(frame.value)
    decreases |touches|
  {
    if touches == [] then Moved(s, caps)
    else
      var m := TouchMove(s, caps, touches[0], frame);
      MoveAll(m.state, m.capsules, touches[1..], frame)
  }

  /** Over a run of moves the held capsule, start point and grab offset do not
      change, and the gesture is a drag exactly when it already was one or
      some touch went beyond the threshold: classification never reverts. */
  lemma {:induction false} MovesClassify(s: DragState, caps: seq<Capsule>, touches: seq<Vec>, frame: Option<Frame>)
    requires frame.Some? ==> Measured(frame.value)
    requires Holding(s)
    ensures MoveAll(s, caps, touches, frame).state
      == s.(dragging := s.dragging || exists i :: 0 <= i < |touches| && BeyondThreshold(s.start, touches[i]))
    ensures |MoveAll(s, caps, touches, frame).capsules| == |caps|
    decreases |touches|
  {
    if touches != [] {
      var m := TouchMove(s, caps, touches[0], frame);
      MovesClassify(m.state, m.capsules, touches[1..], frame);
      if exists i :: 0 <= i < |touches| && BeyondThreshold(s.start, touches[i]) {
        var i :| 0 <= i < |touches| && BeyondThreshold(s.start, touches[i]);
        if i > 0 {
          assert touches[1..][i - 1] == touches[i];
        }
      }
      if exists i :: 0 <= i < |touches[1..]| && BeyondThreshold(s.start, touches[1..][i]) {
        var i :| 0 <= i < |touches[1..]| && BeyondThreshold(s.start, touches[1..][i]);
        assert touches[i + 1] == touches[1..][i];
      }
    }
  }

  /** What a release asks the rest of the component to do. */
  datatype Effect =
    | Quiet
      /** a tap: try to open this capsule */
    | OpenAttempt(target: Capsule)
      /** a throw: persist this record */
    | Persist(record: Capsule)

  /** The result of a touch end. */
  datatype Released = Released(state: DragState, capsules: seq<Capsule>, effect: Effect)

  /** Every capsule with id `id` given velocity `v`; the rest untouched. */
  function Launch(caps: seq<Capsule>, id: Id, v: Vec): (r: seq<Capsule>)
    ensures |r| == |caps|
    ensures forall i :: 0 <= i < |r| && caps[i].id != id ==> r[i] == caps[i]
    ensures forall i :: 0 <= i < |r| && caps[i].id == id ==> r[i] == caps[i].(velocity := v)
  {
    seq(|caps|, i requires 0 <= i < |caps| => if caps[i].id == id then caps[i].(velocity := v) else caps[i])
  }

  /** Touch end on capsule `target`. A gesture that never became a drag is a
      tap on `target`; a drag gives the held capsule a horizontal speed
      `(rand - 0.5) * 2` drawn from `rand` in [0, 1), no vertical speed, and
      persists it. Either way nothing is held afterwards. */
  function TouchEnd(s: DragState, caps: seq<Capsule>, target: Capsule, rand: real): (r: Released)
    requires 0.0 <= rand < 1.0
    ensures !Holding(s) ==> r == Released(s, caps, Quiet)
    ensures Holding(s) ==> r.state == s.(dragged := None, dragging := false)
    ensures Holding(s) && !s.dragging ==> r.capsules == caps && r.effect == OpenAttempt(target)
    ensures |r.capsules| == |caps|
    ensures forall i :: 0 <= i < |caps| && Some(caps[i].id) != s.dragged ==> r.capsules[i] == caps[i]
    ensures Holding(s) && s.dragging ==> forall i :: 0 <= i < |caps| && Some(caps[i].id) == s.dragged ==>
      && SamePayload(caps[i], r.capsules[i])
      && r.capsules[i].position == caps[i].position
      && -1.0 <= r.capsules[i].velocity.x < 1.0
      && r.capsules[i].velocity.y == 0.0
    ensures Holding(s) && s.dragging ==>
      match FindIndex(caps, s.dragged.value)
      case None => r.effect == Quiet
      case Some(i) => r.effect == Persist(r.capsules[i])
  {
    if !Holding(s) then Released(s, caps, Quiet)
    else
      var s' := s.(dragged := None, dragging := false);
      if !s.dragging then Released(s', caps, OpenAttempt(target))
      else
        var id := s.dragged.value;
        var thrown := Launch(caps, id, Vec((rand - 0.5) * 2.0, 0.0));
        var saved := match FindIndex(thrown, id)
          case None => Quiet
          case Some(i) => Persist(thrown[i]);
        Released(s', thrown, saved)
  }

  /** A whole gesture on one capsule: grab, any run of moves, release. It is a
      tap (an open attempt on the touched capsule) exactly when no touch went
      beyond the threshold from the grab point, and it always ends with
      nothing held. */
  lemma TapOrThrow(s: DragState, c: Capsule, touch0: Vec, corner: Vec, caps: seq<Capsule>, touches: seq<Vec>, frame: Option<Frame>, rand: real)
    requires frame.Some? ==> Measured(frame.value)
    requires c.id != 0 && 0.0 <= rand < 1.0
    ensures var s1 := TouchStart(s, c, true, touch0, corner);
      var m := MoveAll(s1, caps, touches, frame);
      var e := TouchEnd(m.state, m.capsules, c, rand);
      && (e.effect == OpenAttempt(c) <==> forall i :: 0 <= i < |touches| ==> !BeyondThreshold(touch0, touches[i]))
      && e.state.dragged == None && !e.state.dragging
  {
    var s1 := TouchStart(s, c, true, touch0, corner);
    MovesClassify(s1, caps, touches, frame);
  }

  /** The threshold is strict: a finger exactly 10 pixels from where it
      started still makes a tap. */
  lemma TenPixelsIsStillATap()
    ensures !BeyondThreshold(Vec(0.0, 0.0), Vec(0.0, 10.0))
    ensures BeyondThreshold(Vec(0.0, 0.0), Vec(0.0, 10.01))
  {
  }
}

=== FILE: physics.dfy ===
/** One frame of the capsule simulation (the body of `updatePhysics`):
    gravity, friction and integration for every free capsule, clamping
    against floor, ceiling and walls, then pairwise velocity nudges. */
module Physics {
  import opened Wrappers
  import opened Capsules

  const Gravity: real := 0.5
  const Bounce: real := 0.7
  const Friction: real := 0.98
  const CapsuleWidth: real := 80.0
  const CapsuleHeight: real := 100.0
  /** Below this speed a floor bounce is cancelled so the capsule comes to rest. */
  const SettleSpeed: real := 0.5
  /** Centre distance in pixels under which two capsules push apart. */
  const MinDistance: real := CapsuleWidth * 0.8
  const RepelGain: real := 0.05

  function Abs(a: real): real {
    if a < 0.0 then -a else a
  }

  /** Largest `y` (percent) at which a capsule still fits above the floor. */
  function BottomLimit(f: Frame): (r: real)
    requires Measured(f)
    ensures f.height >= CapsuleHeight ==> 0.0 <= r < 100.0
    ensures f.height < CapsuleHeight ==> r < 0.0
  {
    (f.height - CapsuleHeight) / f.height * 100.0
  }

  /** Largest `x` (percent) at which a capsule still fits left of the right wall. */
  function RightLimit(f: Frame): (r: real)
    requires Measured(f)
    ensures f.width >= CapsuleWidth ==> 0.0 <= r < 100.0
    ensures f.width < CapsuleWidth ==> r < 0.0
  {
    (f.width - CapsuleWidth) / f.width * 100.0
  }

  /** A container large enough to hold one capsule. */
  predicate Roomy(f: Frame) {
    f.width >= CapsuleWidth && f.height >= CapsuleHeight
  }

  /** The region a free capsule's top-left corner may occupy. */
  predicate InField(p: Vec, f: Frame)
    requires Measured(f)
  {
    0.0 <= p.x <= RightLimit(f) && 0.0 <= p.y <= BottomLimit(f)
  }

  /** Position and velocity of one capsule while the step works on it. */
  datatype Body = Body(pos: Vec, vel: Vec)

  /** Position and velocity along one axis. */
  datatype Axis = Axis(pos: real, vel: real)

  /** Gravity, then friction, then integration. Velocity is in pixels per
      frame and is converted to percent with the live container size. */
  function Advance(b: Body, f: Frame): (r: Body)
    requires Measured(f)
    ensures (r.pos.x - b.pos.x) * f.width == r.vel.x * 100.0
    ensures (r.pos.y - b.pos.y) * f.height == r.vel.y * 100.0
    ensures Abs(r.vel.x) <= Abs(b.vel.x)
    ensures Abs(r.vel.y) <= Abs(b.vel.y + Gravity)
  {
    var vx := b.vel.x * Friction;
    var vy := (b.vel.y + Gravity) * Friction;
    Body(Vec(b.pos.x + vx / f.width * 100.0, b.pos.y + vy / f.height * 100.0), Vec(vx, vy))
  }

  /** Floor collision: clamp to the limit, reflect with restitution, and
      cancel a reflected speed below the settle threshold. */
  function Floor(a: Axis, limit: real): (r: Axis)
    ensures a.pos <= limit ==> r == a
    ensures a.pos > limit ==> r.pos == limit
    ensures a.pos > limit ==> Abs(r.vel) <= Bounce * Abs(a.vel) && r.vel * a.vel <= 0.0
    ensures a.pos > limit ==> (r.vel == 0.0 <==> Bounce * Abs(a.vel) < SettleSpeed)
    ensures a.pos > limit && r.vel != 0.0 ==> r.vel == -Bounce * a.vel
  {
    if a.pos > limit then
      var v := -a.vel * Bounce;
      Axis(limit, if Abs(v) < SettleSpeed then 0.0 else v)
    else
      a
  }

  /** Collision with the ceiling or the left wall, both at 0: a hit clamps to
      0 and scales the reversed velocity by the restitution, with no settle rule. */
  function ReflectLow(a: Axis): (r: Axis)
    ensures a.pos >= 0.0 ==> r == a
    ensures a.pos < 0.0 ==> r == Axis(0.0, -Bounce * a.vel)
    ensures Abs(r.vel) <= Abs(a.vel)
  {
    if a.pos < 0.0 then Axis(0.0, -a.vel * Bounce) else a
  }

  /** Collision with the right wall: a hit clamps to the limit and scales the
      reversed velocity by the restitution, with no settle rule. */
  function ReflectHigh(a: Axis, limit: real): (r: Axis)
    ensures a.pos <= limit ==> r == a
    ensures a.pos > limit ==> r == Axis(limit, -Bounce * a.vel)
    ensures Abs(r.vel) <= Abs(a.vel)
  {
    if a.pos > limit then Axis(limit, -a.vel * Bounce) else a
  }

  /** A free capsule's motion for one frame before the pairwise nudges:
      integrate, then floor, ceiling, right wall and left wall. */
  function Move(b: Body, f: Frame): (r: Body)
    requires Measured(f)
    ensures f.height >= CapsuleHeight ==> 0.0 <= r.pos.y <= BottomLimit(f)
    ensures f.width >= CapsuleWidth ==> 0.0 <= r.pos.x <= RightLimit(f)
    ensures Abs(r.vel.x) <= Abs(b.vel.x)
    ensures Abs(r.vel.y) <= Abs(b.vel.y + Gravity)
    ensures InField(Advance(b, f).pos, f) ==> r == Advance(b, f)
    ensures var m := Advance(b, f); m.pos.y > BottomLimit(f) >= 0.0 ==>
      r.pos.y == BottomLimit(f) && (r.vel.y == 0.0 <==> Bounce * Abs(m.vel.y) < SettleSpeed)
    ensures var m := Advance(b, f); m.pos.y > BottomLimit(f) >= 0.0 && r.vel.y != 0.0 ==>
      r.vel.y == -Bounce * m.vel.y
    ensures var m := Advance(b, f); m.pos.y < 0.0 <= BottomLimit(f) ==>
      r.pos.y == 0.0 && r.vel.y == -Bounce * m.vel.y
    ensures var m := Advance(b, f); m.pos.x > RightLimit(f) >= 0.0 ==>
      r.pos.x == RightLimit(f) && r.vel.x == -Bounce * m.vel.x
    ensures var m := Advance(b, f); m.pos.x < 0.0 <= RightLimit(f) ==>
      r.pos.x == 0.0 && r.vel.x == -Bounce * m.vel.x
  {
    var m := Advance(b, f);
    var y := ReflectLow(Floor(Axis(m.pos.y, m.vel.y), BottomLimit(f)));
    var x := ReflectLow(ReflectHigh(Axis(m.pos.x, m.vel.x), RightLimit(f)));
    Body(Vec(x.pos, y.pos), Vec(x.vel, y.vel))
  }

  /** A capsule lying on the floor with a small vertical speed stays on the
      floor and comes to rest: gravity's pull is cancelled by the settle rule
      instead of starting an endless micro-bounce. */
  lemma RestingCapsuleStaysPut(b: Body, f: Frame)
    requires Measured(f) && f.height >= CapsuleHeight
    requires b.pos.y == BottomLimit(f) && -SettleSpeed <= b.vel.y <= 0.2
    ensures Move(b, f).pos.y == BottomLimit(f)
    ensures Move(b, f).vel.y == 0.0
  {
  }

  /** Pixel displacement from the capsule being stepped (at `at`) to `other`. */
  function Offset(at: Vec, other: Capsule, f: Frame): Vec
    requires Measured(f)
  {
    Vec((other.position.x - at.x) * f.width / 100.0, (other.position.y - at.y) * f.height / 100.0)
  }

  /** The pixel distance to `other` is strictly between 0 and the minimum
      distance. `sqrt` stands for `Math.sqrt`, which this model does not define. */
  predicate Near(at: Vec, other: Capsule, f: Frame, sqrt: real -> real)
    requires Measured(f)
  {
    0.0 < Distance(Offset(at, other, f), sqrt) < MinDistance
  }

  /** `Math.sqrt(dx * dx + dy * dy)`. */
  function Distance(d: Vec, sqrt: real -> real): real {
    sqrt(d.x * d.x + d.y * d.y)
  }

  /** The velocity correction `(ax, ay)` one nearby capsule causes. The source
      aims at a target point `minDistance` from this capsule along
      `atan2(dy, dx)`; with `cos(atan2(dy, dx)) = dx / dist` and
      `sin(atan2(dy, dx)) = dy / dist` that is the algebraic form below. The
      correction points towards `other` on each axis, so subtracting it from
      the velocity pushes the capsules apart. */
  function Repel(at: Vec, other: Capsule, f: Frame, sqrt: real -> real): (r: Vec)
    requires Measured(f)
    ensures !Near(at, other, f, sqrt) ==> r == Zero
    ensures r.x * Offset(at, other, f).x >= 0.0
    ensures r.y * Offset(at, other, f).y >= 0.0
    ensures Near(at, other, f, sqrt) && Offset(at, other, f).x != 0.0 ==> r.x * Offset(at, other, f).x > 0.0
    ensures Near(at, other, f, sqrt) && Offset(at, other, f).y != 0.0 ==> r.y * Offset(at, other, f).y > 0.0
  {
    var d := Offset(at, other, f);
    var dist := Distance(d, sqrt);
    if 0.0 < dist < MinDistance then
      var cx := Pull(f.width, dist);
      var cy := Pull(f.height, dist);
      ScaledSquare(cx, d.x);
      ScaledSquare(cy, d.y);
      Vec(cx * d.x, cy * d.y)
    else
      Zero
  }

  /** The gain per pixel of displacement: `0.05 * (100 / size) * (minDistance - dist) / dist`. */
  function Pull(size: real, dist: real): (c: real)
    requires size > 0.0 && 0.0 < dist < MinDistance
    ensures c > 0.0
  {
    var overlap := (MinDistance - dist) / dist;
    var scale := RepelGain * (100.0 / size);
    assert overlap > 0.0 && scale > 0.0;
    scale * overlap
  }

  lemma ScaledSquare(c: real, a: real)
    requires c >= 0.0
    ensures (c * a) * a >= 0.0
    ensures c > 0.0 && a != 0.0 ==> (c * a) * a > 0.0
  {
    assert (c * a) * a == c * (a * a);
  }

  /** Whether `other` takes part in `self`'s pairwise loop: not itself (by id)
      and not the capsule being dragged. */
  predicate Partner(self: Capsule, other: Capsule, dragged: Option<Id>) {
    other.id != self.id && dragged != Some(other.id)
  }

  /** The pairwise loop: every partner in `others`, in list order, subtracts
      its correction from the velocity; the position `at` is read, never written. */
  function Nudge(v: Vec, self: Capsule, at: Vec, others: seq<Capsule>, dragged: Option<Id>, f: Frame, sqrt: real -> real): (r: Vec)
    requires Measured(f)
    ensures (forall i :: 0 <= i < |others| ==> !Partner(self, others[i], dragged)) ==> r == v
    decreases |others|
  {
    if others == [] then v
    else
      var o := others[0];
      var v' := if Partner(self, o, dragged) then (var a := Repel(at, o, f, sqrt); Vec(v.x - a.x, v.y - a.y)) else v;
      Nudge(v', self, at, others[1..], dragged, f, sqrt)
  }

  /** One near partner pushes the velocity away from itself: the loop over a
      single partner subtracts exactly its correction, which lowers the
      velocity component towards the partner on every axis where they are apart. */
  lemma OnePartnerPushesApart(v: Vec, self: Capsule, at: Vec, o: Capsule, dragged: Option<Id>, f: Frame, sqrt: real -> real)
    requires Measured(f) && Partner(self, o, dragged)
    ensures var a := Repel(at, o, f, sqrt);
      Nudge(v, self, at, [o], dragged, f, sqrt) == Vec(v.x - a.x, v.y - a.y)
    ensures var r := Nudge(v, self, at, [o], dragged, f, sqrt); var d := Offset(at, o, f);
      && (Near(at, o, f, sqrt) && d.x != 0.0 ==> (r.x - v.x) * d.x < 0.0)
      && (Near(at, o, f, sqrt) && d.y != 0.0 ==> (r.y - v.y) * d.y < 0.0)
  {
  }

  /** The nudges only add to the velocity: the total correction depends on
      the positions alone, not on the velocity it is applied to. */
  lemma {:induction false} NudgeAddsCorrection(v: Vec, self: Capsule, at: Vec, others: seq<Capsule>, dragged: Option<Id>, f: Frame, sqrt: real -> real)
    requires Measured(f)
    ensures var d := Nudge(Zero, self, at, others, dragged, f, sqrt);
      Nudge(v, self, at, others, dragged, f, sqrt) == Vec(v.x + d.x, v.y + d.y)
    decreases |others|
  {
    if others != [] {
      var o := others[0];
      var a := if Partner(self, o, dragged) then Repel(at, o, f, sqrt) else Zero;
      var v' := Vec(v.x - a.x, v.y - a.y);
      var z' := Vec(0.0 - a.x, 0.0 - a.y);
      assert Nudge(v, self, at, others, dragged, f, sqrt) == Nudge(v', self, at, others[1..], dragged, f, sqrt);
      assert Nudge(Zero, self, at, others, dragged, f, sqrt) == Nudge(z', self, at, others[1..], dragged, f, sqrt);
      NudgeAddsCorrection(v', self, at, others[1..], dragged, f, sqrt);
      NudgeAddsCorrection(z', self, at, others[1..], dragged, f, sqrt);
    }
  }

  /** A capsule with no partner closer than the minimum distance keeps its velocity. */
  lemma {:induction false} IsolatedCapsuleKeepsVelocity(v: Vec, self: Capsule, at: Vec, others: seq<Capsule>, dragged: Option<Id>, f: Frame, sqrt: real -> real)
    requires Measured(f)
    requires forall i :: 0 <= i < |others| && Partner(self, others[i], dragged) ==> !Near(at, others[i], f, sqrt)
    ensures Nudge(v, self, at, others, dragged, f, sqrt) == v
    decreases |others|
  {
    if others != [] {
      assert Partner(self, others[0], dragged) ==> !Near(at, others[0], f, sqrt);
      forall i | 0 <= i < |others[1..]| && Partner(self, others[1..][i], dragged)
        ensures !Near(at, others[1..][i], f, sqrt)
      {
        assert others[1..][i] == others[i + 1];
      }
      IsolatedCapsuleKeepsVelocity(v, self, at, others[1..], dragged, f, sqrt);
    }
  }

  /** One capsule's frame. The dragged capsule keeps its position and is held
      at zero velocity; a free one moves and is then nudged by its partners. */
  function StepCapsule(c: Capsule, prev: seq<Capsule>, dragged: Option<Id>, f: Frame, sqrt: real -> real): (r: Capsule)
    requires Measured(f)
    ensures SamePayload(c, r)
    ensures dragged == Some(c.id) ==> r == c.(velocity := Zero)
    ensures dragged != Some(c.id) ==> r.position == Move(Body(c.position, c.velocity), f).pos
  {
    if dragged == Some(c.id) then
      c.(velocity := Zero)
    else
      var m := Move(Body(c.position, c.velocity), f);
      c.(position := m.pos, velocity := Nudge(m.vel, c, m.pos, prev, dragged, f, sqrt))
  }

  /** The whole frame. Without a mounted container the list is returned as is. */
  function Step(prev: seq<Capsule>, dragged: Option<Id>, frame: Option<Frame>, sqrt: real -> real): (r: seq<Capsule>)
    requires frame.Some? ==> Measured(frame.value)
    ensures frame.None? ==> r == prev
    ensures |r| == |prev|
    ensures forall i :: 0 <= i < |r| ==> SamePayload(prev[i], r[i])
    ensures frame.Some? ==> forall i :: 0 <= i < |r| && dragged == Some(prev[i].id) ==> r[i] == prev[i].(velocity := Zero)
    ensures frame.Some? && Roomy(frame.value) ==>
      forall i :: 0 <= i < |r| && dragged != Some(prev[i].id) ==> InField(r[i].position, frame.value)
  {
    if frame.None? then prev
    else seq(|prev|, i requires 0 <= i < |prev| => StepCapsule(prev[i], prev, dragged, frame.value, sqrt))
  }

  /** The pairwise loop never moves a capsule: positions after a frame are the
      same whatever the square root (and hence every correction) turns out to be. */
  lemma PositionsIgnoreRepulsion(prev: seq<Capsule>, dragged: Option<Id>, frame: Option<Frame>, sqrt1: real -> real, sqrt2: real -> real)
    requires frame.Some? ==> Measured(frame.value)
    ensures forall i :: 0 <= i < |prev| ==> Step(prev, dragged, frame, sqrt1)[i].position == Step(prev, dragged, frame, sqrt2)[i].position
  {
  }

  /** A free capsule with no nearby partner ends the frame with exactly the
      motion of `Move`: bounded inside the field and no faster horizontally
      than before (gravity may still speed it up vertically). */
  lemma LoneCapsuleStep(c: Capsule, prev: seq<Capsule>, dragged: Option<Id>, f: Frame, sqrt: real -> real)
    requires Measured(f) && Roomy(f)
    requires dragged != Some(c.id)
    requires forall i :: 0 <= i < |prev| && Partner(c, prev[i], dragged) ==> !Near(Move(Body(c.position, c.velocity), f).pos, prev[i], f, sqrt)
    ensures InField(StepCapsule(c, prev, dragged, f, sqrt).position, f)
    ensures StepCapsule(c, prev, dragged, f, sqrt).velocity == Move(Body(c.position, c.velocity), f).vel
    ensures Abs(StepCapsule(c, prev, dragged, f, sqrt).velocity.x) <= Abs(c.velocity.x)
  {
    var m := Move(Body(c.position, c.velocity), f);
    IsolatedCapsuleKeepsVelocity(m.vel, c, m.pos, prev, dragged, f, sqrt);
  }
}

=== FILE: store.dfy ===
/** The local fallback store (`saveCapsuleToLocalStorage`) as a list
    operation, and the mapping between capsules and remote table rows. */
module Store {
  import opened Wrappers
  import opened Capsules

  /** Replace the first record with the capsule's id, or else append it. */
  function Upsert(list: seq<Capsule>, c: Capsule): (r: seq<Capsule>)
    ensures FindIndex(list, c.id).None? ==> r == list + [c]
    ensures FindIndex(list, c.id).Some? ==>
      var i := FindIndex(list, c.id).value;
      && |r| == |list|
      && r[i] == c
      && forall j :: 0 <= j < |list| && j != i ==> r[j] == list[j]
    ensures c in r
  {
    match FindIndex(list, c.id)
    case None => list + [c]
    case Some(i) => list[i := c]
  }

  /** Reading back by id after an upsert finds the capsule just written. */
  lemma UpsertThenFind(list: seq<Capsule>, c: Capsule)
    ensures var r := Upsert(list, c);
      FindIndex(r, c.id).Some? && r[FindIndex(r, c.id).value] == c
  {
  }

  /** Upserting the same capsule twice is the same as upserting it once. */
  lemma UpsertIdempotent(list: seq<Capsule>, c: Capsule)
    ensures Upsert(Upsert(list, c), c) == Upsert(list, c)
  {
  }

  /** Upserting one capsule changes neither where nor what any other id is found. */
  lemma UpsertKeepsOthers(list: seq<Capsule>, c: Capsule, id: Id)
    requires id != c.id
    ensures FindIndex(Upsert(list, c), id) == FindIndex(list, id)
    ensures FindIndex(list, id).Some? ==>
      Upsert(list, c)[FindIndex(list, id).value] == list[FindIndex(list, id).value]
  {
    var r := Upsert(list, c);
    match FindIndex(list, id)
    case None =>
      assert forall j :: 0 <= j < |r| ==> r[j].id != id;
    case Some(i) =>
      FindIndexIs(r, id, i);
  }

  /** A row of the remote `capsules` table. Rows written by this program use
      the snake_case columns; the camelCase ones are what older rows and
      locally stored records carry, and are read as a fallback. */
  datatype Row = Row(
    id: Id,
    name: string,
    password: string,
    image: Option<string>,
    current_feeling: Option<string>,
    future_message: Option<string>,
    position: Option<Vec>,
    velocity: Option<Vec>,
    created_at: Option<string>,
    updated_at: Option<string>,
    currentFeeling: Option<string>,
    futureMessage: Option<string>,
    createdAt: Option<string>)

  /** The row written for a capsule at time `stamp` (an ISO string). */
  function ToRow(c: Capsule, stamp: string): (r: Row)
    ensures r.id == c.id && r.name == c.name && r.password == c.password && r.image == c.image
    ensures r.position == Some(c.position) && r.velocity == Some(c.velocity)
    ensures Truthy(c.createdAt) ==> r.created_at == c.createdAt
    ensures !Truthy(c.createdAt) ==> r.created_at == Some(stamp)
    ensures r.updated_at == Some(stamp)
    ensures r.current_feeling == c.currentFeeling && r.future_message == c.futureMessage
    ensures r.currentFeeling.None? && r.futureMessage.None? && r.createdAt.None?
  {
    Row(c.id, c.name, c.password, c.image, c.currentFeeling, c.futureMessage,
        Some(c.position), Some(c.velocity), OrElse(c.createdAt, Some(stamp)), Some(stamp),
        None, None, None)
  }

  /** The capsule read from a row. A missing position is seeded at
      `(rx * 60 + 20, 10 + ry * 20)` from `rx`, `ry` in [0, 1); a missing
      velocity is zero; a falsy snake_case text falls back to camelCase. */
  function FromRow(row: Row, rx: real, ry: real): (c: Capsule)
    requires 0.0 <= rx < 1.0 && 0.0 <= ry < 1.0
    ensures c.id == row.id && c.name == row.name && c.password == row.password && c.image == row.image
    ensures row.position.Some? ==> c.position == row.position.value
    ensures row.position.None? ==> 20.0 <= c.position.x < 80.0 && 10.0 <= c.position.y < 30.0
    ensures c.velocity == if row.velocity.Some? then row.velocity.value else Zero
    ensures Truthy(row.current_feeling) ==> c.currentFeeling == row.current_feeling
    ensures !Truthy(row.current_feeling) ==> c.currentFeeling == row.currentFeeling
    ensures Truthy(row.future_message) ==> c.futureMessage == row.future_message
    ensures !Truthy(row.future_message) ==> c.futureMessage == row.futureMessage
    ensures Truthy(row.created_at) ==> c.createdAt == row.created_at
    ensures !Truthy(row.created_at) ==> c.createdAt == row.createdAt
  {
    Capsule(row.id, row.name, row.password, row.image,
            OrElse(row.current_feeling, row.currentFeeling),
            OrElse(row.future_message, row.futureMessage),
            OrElse(row.created_at, row.createdAt),
            match row.position
              case Some(p) => p
              case None => Vec(rx * 60.0 + 20.0, 10.0 + ry * 20.0),
            match row.velocity
              case Some(v) => v
              case None => Zero)
  }

  /** An optional text as it survives `x || undefined`: falsy becomes absent. */
  function Normal(s: Option<string>): Option<string> {
    if Truthy(s) then s else None
  }

  /** Writing a capsule to a row and reading it back gives the same capsule,
      except that an empty feeling or message comes back absent and a missing
      creation time comes back as the write time. */
  lemma RowRoundTrip(c: Capsule, stamp: string, rx: real, ry: real)
    requires 0.0 <= rx < 1.0 && 0.0 <= ry < 1.0
    requires stamp != ""
    ensures FromRow(ToRow(c, stamp), rx, ry) ==
      c.(currentFeeling := Normal(c.currentFeeling),
         futureMessage := Normal(c.futureMessage),
         createdAt := if Truthy(c.createdAt) then c.createdAt else Some(stamp))
  {
  }

  /** Hence a capsule whose feeling and message are absent or non-empty and
      whose creation time is set survives the round trip unchanged. */
  lemma RowRoundTripExact(c: Capsule, stamp: string, rx: real, ry: real)
    requires 0.0 <= rx < 1.0 && 0.0 <= ry < 1.0
    requires stamp != ""
    requires c.currentFeeling != Some("") && c.futureMessage != Some("") && Truthy(c.createdAt)
    ensures FromRow(ToRow(c, stamp), rx, ry) == c
  {
    RowRoundTrip(c, stamp, rx, ry);
  }
}

=== FILE: unlock.dfy ===
/** Opening a capsule (`handleCapsuleClick`, `handlePasswordCheck`): before
    the unlock time a tap only reports how long is left; afterwards it opens
    the viewer locked, and the viewer unlocks on the exact password. */
module UnlockGate {
  import opened Wrappers
  import opened Capsules

  const MsPerMinute: int := 60000
  const MsPerHour: int := 3600000
  const MsPerDay: int := 86400000

  /** 2025-11-13T18:00:00 read as UTC, in milliseconds since the epoch. */
  const UnlockWallClockUtc: int := 1763056800000

  /** The unlock instant. The source's date string has no zone designator, so
      it is read as local time: the instant depends on the device's offset
      from UTC, in minutes (540 for Korea Standard Time). */
  function UnlockAt(zoneOffsetMinutes: int): (r: int)
    ensures zoneOffsetMinutes == 0 ==> r == UnlockWallClockUtc
    ensures zoneOffsetMinutes == 540 ==> r == 1763024400000
    ensures zoneOffsetMinutes > 0 ==> r < UnlockWallClockUtc
  {
    UnlockWallClockUtc - zoneOffsetMinutes * MsPerMinute
  }

  /** Whole days, hours and minutes left, as shown in the "cannot open yet" notice. */
  datatype Remaining = Remaining(days: nat, hours: nat, minutes: nat)

  function Total(r: Remaining): int {
    r.days * MsPerDay + r.hours * MsPerHour + r.minutes * MsPerMinute
  }

  /** `n / d` and `n % d` are the unique quotient and remainder. */
  lemma DivModUnique(n: int, d: int, q: int, m: int)
    requires d > 0 && 0 <= m < d && n == q * d + m
    ensures n / d == q && n % d == m
  {
    var q' := n / d;
    var m' := n % d;
    assert (q' - q) * d == m - m';
    if q' > q {
      MulAtLeast(q' - q, d);
    } else if q' < q {
      MulAtLeast(q - q', d);
    }
  }

  lemma MulAtLeast(k: int, d: int)
    requires k >= 1 && d > 0
    ensures k * d >= d
  {
    assert k * d == (k - 1) * d + d;
    assert (k - 1) * d >= 0;
  }

  /** The remaining milliseconds split into days, hours below 24 and minutes
      below 60, truncating the seconds: the split is exact to the minute. */
  function Countdown(ms: int): (r: Remaining)
    requires ms > 0
    ensures r.hours < 24 && r.minutes < 60
    ensures Total(r) <= ms < Total(r) + MsPerMinute
  {
    var days := ms / MsPerDay;
    var inDay := ms % MsPerDay;
    var hours := inDay / MsPerHour;
    var minutes := (ms % MsPerHour) / MsPerMinute;
    var inHour := inDay % MsPerHour;
    var seconds := inHour % MsPerMinute;
    DivModUnique(inDay, MsPerHour, hours, inHour);
    DivModUnique(ms, MsPerHour, days * 24 + hours, inHour);
    DivModUnique(inHour, MsPerMinute, minutes, seconds);
    Remaining(days, hours, minutes)
  }

  /** The countdown is the only split with these ranges: any days, hours and
      minutes that bound `ms` to the minute are the countdown's. */
  lemma CountdownUnique(ms: int, r: Remaining)
    requires ms > 0
    requires r.hours < 24 && r.minutes < 60
    requires Total(r) <= ms < Total(r) + MsPerMinute
    ensures Countdown(ms) == r
  {
    var rest := ms - Total(r);
    var inHour := r.minutes * MsPerMinute + rest;
    var inDay := r.hours * MsPerHour + inHour;
    DivModUnique(ms, MsPerDay, r.days, inDay);
    DivModUnique(inDay, MsPerHour, r.hours, inHour);
    DivModUnique(ms, MsPerHour, r.days * 24 + r.hours, inHour);
    DivModUnique(inHour, MsPerMinute, r.minutes, rest);
  }

  /** The capsule viewer: the capsule shown, whether it is open, whether it
      has been unlocked, the typed password and the error line. */
  datatype Viewer = Viewer(selected: Option<Capsule>, open: bool, unlocked: bool, entry: string, error: string)

  const Closed: Viewer := Viewer(None, false, false, "", "")

  const WrongPassword: string := "비밀번호가 틀렸습니다!"

  /** The result of a tap: the viewer, and the notice shown when it is too early. */
  datatype Attempt = Attempt(viewer: Viewer, notice: Option<Remaining>)

  /** A tap on capsule `c` at time `now` (milliseconds). */
  function OpenAttempt(v: Viewer, c: Capsule, now: int, unlockAt: int): (r: Attempt)
    ensures r.notice.Some? <==> now < unlockAt
    ensures now < unlockAt ==> r.viewer == v
    ensures now < unlockAt ==>
      var w := r.notice.value;
      && w.hours < 24 && w.minutes < 60
      && Total(w) <= unlockAt - now < Total(w) + MsPerMinute
    ensures now >= unlockAt ==> r.viewer == Viewer(Some(c), true, false, "", "")
  {
    if now < unlockAt then Attempt(v, Some(Countdown(unlockAt - now)))
    else Attempt(Viewer(Some(c), true, false, "", ""), None)
  }

  /** Typing into the password field. */
  function Enter(v: Viewer, candidate: string): Viewer {
    v.(entry := candidate)
  }

  /** The password button. With no capsule selected the source throws on
      `selectedCapsule.password`; that is `None` here. The viewer unlocks
      exactly when the typed text equals the password; a mismatch sets the
      error and leaves the unlocked flag as it was. */
  function PasswordCheck(v: Viewer): (r: Option<Viewer>)
    ensures r.None? <==> v.selected.None?
    ensures r.Some? ==> r.value.selected == v.selected && r.value.open == v.open && r.value.entry == v.entry
    ensures r.Some? ==> (r.value.unlocked <==> v.unlocked || v.entry == v.selected.value.password)
    ensures r.Some? ==> (r.value.error == "" <==> v.entry == v.selected.value.password)
  {
    match v.selected
    case None => None
    case Some(c) =>
      if v.entry == c.password then Some(v.(unlocked := true, error := ""))
      else Some(v.(error := WrongPassword))
  }

  /** A run of typed candidates, each followed by a press of the password
      button; a press that throws changes nothing. */
  function Tries(v: Viewer, candidates: seq<string>): Viewer
    decreases |candidates|
  {
    if candidates == [] then v
    else
      var next := match PasswordCheck(Enter(v, candidates[0]))
        case None => v
        case Some(w) => w;
      Tries(next, candidates[1..])
  }

  lemma {:induction false} TriesOnOpenViewer(v: Viewer, candidates: seq<string>)
    requires v.selected.Some?
    ensures Tries(v, candidates).selected == v.selected
    ensures Tries(v, candidates).unlocked <==>
      v.unlocked || exists i :: 0 <= i < |candidates| && candidates[i] == v.selected.value.password
    decreases |candidates|
  {
    if candidates != [] {
      var w := PasswordCheck(Enter(v, candidates[0])).value;
      TriesOnOpenViewer(w, candidates[1..]);
      var pw := v.selected.value.password;
      if exists i :: 0 <= i < |candidates[1..]| && candidates[1..][i] == pw {
        var i :| 0 <= i < |candidates[1..]| && candidates[1..][i] == pw;
        assert candidates[i + 1] == pw;
      }
      if exists i :: 0 <= i < |candidates| && candidates[i] == pw {
        var i :| 0 <= i < |candidates| && candidates[i] == pw;
        if i > 0 {
          assert candidates[1..][i - 1] == pw;
        }
      }
    }
  }

  lemma {:induction false} TriesOnClosedViewer(candidates: seq<string>)
    ensures Tries(Closed, candidates) == Closed
    decreases |candidates|
  {
    if candidates != [] {
      TriesOnClosedViewer(candidates[1..]);
    }
  }

  /** Starting from a closed viewer, a tap followed by any run of password
      attempts leaves the capsule unlocked exactly when the tap came at or
      after the unlock time and some attempt matched the password exactly. */
  lemma UnlockNeedsTimeAndPassword(c: Capsule, now: int, unlockAt: int, candidates: seq<string>)
    ensures Tries(OpenAttempt(Closed, c, now, unlockAt).viewer, candidates).unlocked <==>
      now >= unlockAt && exists i :: 0 <= i < |candidates| && candidates[i] == c.password
  {
    if now < unlockAt {
      TriesOnClosedViewer(candidates);
    } else {
      TriesOnOpenViewer(OpenAttempt(Closed, c, now, unlockAt).viewer, candidates);
    }
  }

  /** One minute before the unlock time the tap only reports one minute left;
      one second after it, the viewer opens. */
  lemma GateAroundUnlockTime(c: Capsule)
    ensures OpenAttempt(Closed, c, UnlockAt(540) - MsPerMinute, UnlockAt(540)) == Attempt(Closed, Some(Remaining(0, 0, 1)))
    ensures OpenAttempt(Closed, c, UnlockAt(540) + 1000, UnlockAt(540)).viewer.open
  {
  }
}

=== FILE: wrappers.dfy ===
/** The optional value used wherever the source has `null`, `undefined` or a missing element. */
module Wrappers {

  datatype Option<+T> = None | Some(value: T)
}
